=== FILE: README.md ===
# EcoCycleAI interaction flows in Dafny

EcoCycleAI is a React front end. A user photographs a waste item and an AI
service classifies it as Reusable, Non-Reusable or Hazardous. The user then
chooses between two branches:

- a creative-reuse branch, which asks the service for a step-by-step
  "blueprint" using the tools the user has;
- a fixed disposal guide.

Around this sit a session root and a user dashboard. The session root
tracks role, login, language and the product list. The dashboard switches
between home, scanner and marketplace.

This project lifts those screens' state out of the components and writes it
as immutable records with pure transition functions. Each call into the AI
service becomes an `Outcome` that the caller passes in: `Success(value)` or
`Failure`.

Every interactive screen has three parts:

- a view function: what is rendered (`Scan.ViewOf`, `Creative.ViewOf`,
  `Session.ScreenOf`, `Dashboard.PageOf`);
- an `Offered` predicate: which user actions that rendering makes possible;
- a `Step` function: the handler each action runs.

`Disposal` is display only: it has neither `Offered` nor `Step`, and its two
buttons are the exits `Scan.ExitButton` lists. `Session`, `Scan` and
`Creative` prove their invariants for every sequence of offered actions,
through their `Run` and `AllOffered` functions. `Dashboard` has no invariant
to keep, so its round trips are proved one step at a time.

Modules, one per source file:

- `Types` (types.dfy): the shared records from `types.ts`.
- `Session` (app.dfy): the application root, `App.tsx`.
- `Dashboard` (user_dashboard.dfy): `views/UserDashboard.tsx`.
- `Scan` (scan_process.dfy): `views/ScanProcess.tsx`.
- `Creative` (creative_flow.dfy): `views/CreativeFlow.tsx`.
- `Disposal` (disposal_guide.dfy): `views/DisposalGuide.tsx`.

Three behaviours of the code are worth knowing before reading the model:

- A failed classification leaves `image` set and `result` null. Neither the
  upload picker (`!image && !loading`, views/ScanProcess.tsx:107) nor the
  result panel (`result && !loading`, views/ScanProcess.tsx:132) renders
  then. No scanner event is offered other than the scanner's own Back
  (`Dashboard.ScanBack`), so there is no retry inside the scanner.
  `Scan.FailureIsStuck` proves this.
- The blueprint's step index is not reset when a new blueprint arrives, and
  it survives a return to the tool picker. "## Findings" below covers this.
- The classification payload is `split(',')[1]`, the field between the
  first and second comma. It is not the whole text after the first comma.
  The two agree on data URLs, whose base64 body has no comma
  (`Scan.PayloadOfDataUrl`).

## Model

| member | source | states |
|---|---|---|
| `Session.Init` | App.tsx:12-15 | The app starts with no role, logged out, in English, with the two mock products. It satisfies the session invariant and shows the landing screen. |
| `Session.ScreenOf` | App.tsx:52-107 | Landing shows iff logged out with no role. The login form of role r shows iff logged out with role r. A dashboard shows iff logged in, and under the invariant it is the dashboard of the current role. |
| `Session.ChooseRole` | App.tsx:66-83 | Picking a card on the landing page sets only the role, keeps the invariant, and leads to that role's login form. |
| `Session.ClearRole` | App.tsx:89-93 | Back from either login form clears the role, changes nothing else, and returns to landing. |
| `Session.Login` | App.tsx:21-24 | Login sets the role and the logged-in flag, keeps the language and products, and shows that role's dashboard. |
| `Session.Logout` | App.tsx:26-29 | Logout clears the flag and the role, keeps the language and products, and returns to landing. |
| `Session.AddProduct` | App.tsx:31-33 | The new product comes first. Every earlier product follows at its old position plus one. Nothing else changes. |
| `Session.ToggleLanguage` | App.tsx:35-37 | The language flips to the other one. Every other field and the selected screen stay the same. |
| `Session.ToggleLanguageTwice` | App.tsx:35-37 | Toggling the language twice is the identity. |
| `Session.Offered` | App.tsx:42-106 | The language switch is always offered. A role card is offered iff logged out with no role; role r's login iff logged out with role r; Back from a login form iff logged out with a role; logout iff logged in. Under the invariant, listing a product is offered iff logged in as the seller. |
| `Session.Step` | App.tsx:21-92 | Every action a screen offers keeps "logged in implies a role". Only a listing changes the products, and only the switch changes the language. |
| `Session.RunKeepsValid` | App.tsx:21-92 | Every sequence of offered actions keeps "logged in implies a role". |
| `Session.AddAllPrepends` | App.tsx:31-33 | After several additions the list is the new products, newest first, followed by the old list in its order. |
| `Dashboard.Init` | views/UserDashboard.tsx:18 | The dashboard opens on the home page. |
| `Dashboard.PageOf` | views/UserDashboard.tsx:20-21 | Exactly one page per view: home, scanner or marketplace. |
| `Dashboard.Offered` | views/UserDashboard.tsx:20-136 | Home offers exactly the two scan entries and the market card. The scanner offers only its Back, and the marketplace only its own Back. |
| `Dashboard.Step` | views/UserDashboard.tsx:77-137 | Both scan entry points open the scanner. The market card opens the marketplace. Either back callback returns home. |
| `Dashboard.EnterThenBack` | views/UserDashboard.tsx:20-21 | Any entry from home followed by that screen's back returns home. |
| `Scan.Init` | views/ScanProcess.tsx:16-19 | The scanner starts empty, satisfies the workflow invariant, and shows the upload picker. |
| `Scan.IndexOf` | views/ScanProcess.tsx:67 | Returns the first position of the character, or none exactly when the character does not occur. |
| `Scan.Payload` | views/ScanProcess.tsx:67 | There is a payload iff the URL has a comma. The payload contains no comma, is the text right after the first comma, and ends at the next comma or at the end of the URL. |
| `Scan.PayloadOfDataUrl` | views/ScanProcess.tsx:56-67 | For a header without a comma, one comma, and a body without a comma, the payload is exactly the body. |
| `Scan.BeginAnalysis` | views/ScanProcess.tsx:51-68 | A loaded image is kept. Loading turns on and any earlier result is cleared. The decision is untouched. The request carries the URL's payload and the current language. |
| `Scan.FinishAnalysis` | views/ScanProcess.tsx:68-75 | Loading always ends. Success stores the returned result. Failure leaves the result as it was. The image and decision are untouched. |
| `Scan.ViewOf` | views/ScanProcess.tsx:78-203 | A branch screen shows iff its decision is set and a result exists; the creative one gets the classified material. The picker shows iff there is no image and no loading. Disposal is offered iff a result exists and nothing is loading. Creative additionally requires a non-Hazardous result. |
| `Scan.Offered` | views/ScanProcess.tsx:78-203 | A photo can be loaded iff there is no image, nothing loads and no branch shows. A reply arrives only while loading. Disposal can be picked iff a result is in, nothing loads and no branch is chosen; creative additionally needs a non-Hazardous result. An exit button is offered iff its branch is chosen and a result exists. |
| `Scan.Step` | views/ScanProcess.tsx:51-92 | Every offered event keeps the workflow invariant, including "creative decision implies not Hazardous". Picking or leaving a branch changes only the decision. |
| `Scan.RunKeepsInv` | views/ScanProcess.tsx:51-92 | Every sequence of offered events keeps the workflow invariant. |
| `Scan.RunIgnoresLanguage` | views/ScanProcess.tsx:51-92 | Runs in the two languages reach the same state and offer the same events, so the invariant lemmas cover runs that switch language at any point. |
| `Scan.HazardousNeverCreative` | views/ScanProcess.tsx:182-190 | From a fresh scanner, no sequence of user actions reaches the creative screen with a Hazardous result. |
| `Scan.PickShowsBranch` | views/ScanProcess.tsx:78-92 | Choosing creative shows the creative flow for the classified material. Choosing disposal shows the guide for the result. |
| `Scan.LeaveReturnsToDecision` | views/ScanProcess.tsx:78-92 | Any of the four exit buttons clears the decision and keeps the image and result. The decision point shows again, with disposal offered and creative offered iff the item is not Hazardous. |
| `Scan.FailureIsStuck` | views/ScanProcess.tsx:63-132 | After a failed classification the image is still set and the result is null. Neither the picker nor the result panel renders, and no scanner event is offered; only the dashboard's `ScanBack` leaves. |
| `Creative.Init` | views/CreativeFlow.tsx:17-20 | The flow starts with an empty selection on the tool picker, with no instructions, nothing loading, and the step index at step 0. |
| `Creative.Without` | views/CreativeFlow.tsx:42 | Filtering keeps exactly the other tools and never adds duplicates. It removes one element from a duplicate-free list that holds the tool, and leaves a list without the tool unchanged. A tool that occurs once is cut out of its place: the tools before and after it keep their order. |
| `Creative.Toggle` | views/CreativeFlow.tsx:41-43 | The tool's membership flips, other tools keep theirs, and the list stays duplicate-free. A new tool is appended last. A selected tool is cut out of a duplicate-free list, and the other tools keep their order. |
| `Creative.ToggleTwice` | views/CreativeFlow.tsx:41-43 | Toggling the same tool twice restores membership and length. It restores the exact list when the tool was not selected. |
| `Creative.RequestBlueprint` | views/CreativeFlow.tsx:45-52 | An empty selection makes no request and changes no state. Otherwise loading starts and the request carries the material, "Upcycled Craft", the selection and the language. |
| `Creative.ReceiveBlueprint` | views/CreativeFlow.tsx:53-58 | Loading always ends. Success stores the instructions and failure keeps the old ones. The selection and step index are untouched. |
| `Creative.ViewOf` | views/CreativeFlow.tsx:61-127 | Loading shows the spinner and no instructions show the picker. Otherwise the blueprint shows the step at the index, or the render fails when the index is outside the list. Prev is enabled iff the index is not 0. Next shows iff the index is below len-1. |
| `Creative.Offered` | views/CreativeFlow.tsx:61-195 | Tool presses, Get Blueprint and Back to the scanner are offered iff the picker shows (not loading, no instructions). A reply arrives only while loading. On an in-range blueprint Prev is offered iff the index is above 0, Next iff it is below len-1, finish iff it is len-1, and Back to tools always. |
| `Creative.Step` | views/CreativeFlow.tsx:41-164 | The flow is left only by the finish button or the picker's Back. Offered events keep the flow invariant: index ≥ 0, no duplicate tools, and a request in flight has a tool. Prev/Next move by exactly one. Back from the blueprint clears only the instructions. |
| `Creative.StepperStaysInRange` | views/CreativeFlow.tsx:105-119 | On a fixed step list with the index in [0, len-1], an offered Prev or Next moves by one and stays in range. |
| `Creative.LastStepOnlyFinishes` | views/CreativeFlow.tsx:113-126 | At the last step Next is not offered, and the finish button leaves the flow. |
| `Creative.RunKeepsValid` | views/CreativeFlow.tsx:41-76 | Every sequence of offered events keeps the flow invariant. |
| `Creative.RunIgnoresLanguage` | views/CreativeFlow.tsx:41-76 | Runs in the two languages reach the same result and offer the same events. |
| `Creative.NoEmptyRequest` | views/CreativeFlow.tsx:45-52 | From a fresh flow, a blueprint request is only ever in flight with a non-empty, duplicate-free selection. |
| `Creative.StaleStepBreaksBlueprint` | views/CreativeFlow.tsx:70-76 | A concrete offered sequence: walk a 3-step blueprint to the end, go Back, and get a 1-step blueprint. It leaves index 2 and fails the render. |
| `Creative.ReceiveBlueprintCorrected` | views/CreativeFlow.tsx:53-58 | The corrected handler: success stores the instructions and opens them at step 0. Failure acts as in the source. |
| `Creative.StepCorrected` | views/CreativeFlow.tsx:53-58 | The corrected flow keeps the corrected invariant, under which the index is 0 or inside the list. It differs from the source only on a service reply. |
| `Creative.RunCorrectedKeepsValid` | views/CreativeFlow.tsx:41-76 | Every offered sequence of the corrected flow keeps the corrected invariant. |
| `Creative.RunCorrectedIgnoresLanguage` | views/CreativeFlow.tsx:41-76 | The corrected flow, too, reaches the same result and offers the same events in either language. |
| `Creative.CorrectedBlueprintRenders` | views/CreativeFlow.tsx:70-71 | In the corrected flow the blueprint fails to render only for a reply with no steps. |
| `Disposal.Steps` | views/DisposalGuide.tsx:17-35 | Each language has exactly four disposal steps. |
| `Disposal.Guide` | views/DisposalGuide.tsx:60-64 | The displayed list has four entries, and entry i shows step i with the number i + 1. |
| `Disposal.GuideNumbering` | views/DisposalGuide.tsx:60-64 | The numbers are 1 to 4, each one more than the previous. |
| `Disposal.GuideIgnoresResult` | views/DisposalGuide.tsx:13-41 | The guide is identical for any two classification results. |
| `Disposal.Join` | views/DisposalGuide.tsx:56 | The joined text is as long as the pieces plus the separators between them. |
| `Disposal.JoinPieces` | views/DisposalGuide.tsx:56 | Each piece appears at its offset in the joined text, followed by the separator unless it is the last. |
| `Disposal.Narration` | views/DisposalGuide.tsx:56 | The narrated text is the title, ". ", then the four steps separated by single spaces. |

## Findings

| source | as written | input that shows it | evidently intended | confidence | as-written member | corrected member |
|---|---|---|---|---|---|---|
| views/CreativeFlow.tsx:53 | A new blueprint is stored without resetting `activeStep`. Back from the blueprint (line 76) keeps the index too, so `instructions.steps[activeStep]` (line 71) can read past the end, and reading `currentStep.step` then throws. | Select Scissors and generate a 3-step blueprint. Press Next twice, press Back, generate again, and receive a 1-step blueprint: the index is 2. | A newly received blueprint opens at its first step. | medium; not executed | `Creative.StaleStepBreaksBlueprint` (on `Creative.Step`) | `Creative.StepCorrected` (with `Creative.ReceiveBlueprintCorrected`, proved by `Creative.RunCorrectedKeepsValid` and `Creative.CorrectedBlueprintRenders`) |

## Left out

- The AI service client (`services/gemini.ts`): only the request each screen
  sends and a success/failure outcome are modelled. Its prompt text, schema
  and unvalidated JSON parsing are not. A reply with an empty step list
  therefore still fails the blueprint render, even in the corrected flow.
- Speech playback (`components/VoiceAssistant.tsx`): it drives the browser's
  speech engine through asynchronous start and end callbacks. The model
  keeps only the narrated text of the disposal guide.
- Concurrency and stale replies: the code has no request token or
  cancellation. Replies are modelled as events that are offered only while a
  call is in flight.
- The file picker and FileReader: a loaded image appears as one
  `FileLoaded(url)` event. A change event with no file, which the source
  ignores, is not modelled.
- Alerts and console logging on failures and on an empty tool selection:
  these are display side effects only.
- The seller dashboard form, the login forms' non-empty email check, the
  marketplace, `views/ProductInstruction.tsx` (never rendered), the
  decorative background, the avatar, the theme tables, badges and the
  gallery: these are form plumbing, floating-point prices and random ids,
  pure display, or fixed data. Login is the abstract `SubmitLogin` event.
- Localised strings other than the disposal guide's title and steps: these
  are content only.
- The YouTube search link and the placeholder image URLs: these are
  pass-through strings.
- Scan.Offered: the creative branch is one screen here. Its finish button
  and its Back are offered whenever that screen shows. The source offers
  finish only at the last step, and Back only on the tool picker. The
  separate `Creative` model covers both.
- Screen nesting: each screen is modelled alone. Entering a screen in the
  source mounts it afresh, which corresponds to that module's `Init`. The
  scanner's own Back button is `Dashboard.ScanBack`.
- The language is a parameter of `Scan.Step` and `Creative.Step`, because
  the header switch can change it at any time. It only travels with the
  service requests, so `Scan.RunIgnoresLanguage` and
  `Creative.RunIgnoresLanguage` carry every run lemma over to runs that
  switch language.
- Session.Offered: logout is offered on every dashboard screen. In the
  source the user dashboard's logout button (views/UserDashboard.tsx:61)
  shows only on its home page, because the scanner and marketplace replace
  the whole page (views/UserDashboard.tsx:20-21). The invariant lemmas
  therefore cover a superset of the source's runs.

=== FILE: app.dfy ===
/** The application root: who is using the app (role and login flag), the
    display language, and the product list shared by the marketplace and the
    seller's listing form, together with the choice of the top-level screen. */
module Session {
  import opened Types

  datatype AppState = AppState(
    role: Option<Role>,
    loggedIn: bool,
    lang: Language,
    products: seq<Product>)

  /** The top-level screen the root renders. */
  datatype Screen = Landing | LoginScreen(who: Role) | DashboardScreen(who: Role)

  /** The two listings the marketplace starts with. */
  const MockProducts: seq<Product> := [
    Product("p1", "Bottle Lampshade",
            "A beautiful handcrafted lampshade made from recycled PET bottles.",
            25.0, "https://picsum.photos/seed/lamp/400/300", "CreativeCathy", None, None),
    Product("p2", "Upcycled Planter Set",
            "Colorful planters perfect for indoor succulents.",
            15.0, "https://picsum.photos/seed/planter/400/300", "GreenThumbs", None, None)
  ]

  /** The session invariant: nobody is logged in without a role. */
  predicate Valid(s: AppState) {
    s.loggedIn ==> s.role.Some?
  }

  function Init(): (s: AppState)
    ensures Valid(s)
    ensures ScreenOf(s) == Landing
    ensures s.lang == En && s.products == MockProducts
  {
    AppState(None, false, En, MockProducts)
  }

  /** The screen selection of the root: landing without a role, the role's
      login form while logged out, and a dashboard once logged in. A logged-in
      state without a role (which Valid rules out) would show the seller's
      dashboard, because the test is "role is user, else seller". */
  function ScreenOf(s: AppState): (r: Screen)
    ensures r.Landing? <==> !s.loggedIn && s.role.None?
    ensures r.LoginScreen? <==> !s.loggedIn && s.role.Some?
    ensures r.LoginScreen? ==> s.role == Some(r.who)
    ensures r.DashboardScreen? <==> s.loggedIn
    ensures r.DashboardScreen? && Valid(s) ==> s.role == Some(r.who)
  {
    if !s.loggedIn then
      if s.role.None? then Landing else LoginScreen(s.role.value)
    else if s.role == Some(User) then DashboardScreen(User)
    else
      assert s.role.Some? ==> s.role.value.Seller?;
      DashboardScreen(Seller)
  }

  /** Picking "Eco Hero" or "Creator" on the landing screen. */
  function ChooseRole(s: AppState, who: Role): (r: AppState)
    ensures r.role == Some(who)
    ensures r == s.(role := r.role)
    ensures Valid(s) ==> Valid(r)
    ensures !s.loggedIn ==> ScreenOf(r) == LoginScreen(who)
  {
    s.(role := Some(who))
  }

  /** Back from either login form clears the role. */
  function ClearRole(s: AppState): (r: AppState)
    ensures r.role.None?
    ensures r == s.(role := None)
    ensures !s.loggedIn ==> Valid(r) && ScreenOf(r) == Landing
  {
    s.(role := None)
  }

  function Login(s: AppState, who: Role): (r: AppState)
    ensures r.loggedIn && r.role == Some(who)
    ensures r.lang == s.lang && r.products == s.products
    ensures Valid(r)
    ensures ScreenOf(r) == DashboardScreen(who)
  {
    s.(role := Some(who), loggedIn := true)
  }

  function Logout(s: AppState): (r: AppState)
    ensures !r.loggedIn && r.role.None?
    ensures r.lang == s.lang && r.products == s.products
    ensures Valid(r)
    ensures ScreenOf(r) == Landing
  {
    s.(loggedIn := false, role := None)
  }

  /** A new listing goes in front of all earlier ones, which keep their order. */
  function AddProduct(s: AppState, p: Product): (r: AppState)
    ensures |r.products| == |s.products| + 1
    ensures r.products[0] == p
    ensures forall i :: 0 <= i < |s.products| ==> r.products[i + 1] == s.products[i]
    ensures r.role == s.role && r.loggedIn == s.loggedIn && r.lang == s.lang
  {
    s.(products := [p] + s.products)
  }

  function Other(l: Language): (r: Language)
    ensures r != l
  {
    if l == En then Ta else En
  }

  /** The language switch in the fixed header: en and ta swap, nothing else moves. */
  function ToggleLanguage(s: AppState): (r: AppState)
    ensures r.lang != s.lang
    ensures r == s.(lang := r.lang)
    ensures ScreenOf(r) == ScreenOf(s)
  {
    s.(lang := Other(s.lang))
  }

  lemma ToggleLanguageTwice(s: AppState)
    ensures ToggleLanguage(ToggleLanguage(s)) == s
  {
  }

  /** The user actions the root reacts to. Login stands for a successful
      submission of the login form of the given role. */
  datatype AppEvent =
    | PickRole(who: Role)
    | SubmitLogin(who: Role)
    | BackFromLogin
    | LogoutPressed
    | ListProduct(p: Product)
    | LanguagePressed

  /** Which events the screen on display offers. The language switch is always
      on screen; listing a product is only possible from the seller's dashboard. */
  function Offered(s: AppState, e: AppEvent): (b: bool)
    ensures e.LanguagePressed? ==> b
    ensures e.PickRole? ==> (b <==> !s.loggedIn && s.role.None?)
    ensures e.SubmitLogin? ==> (b <==> !s.loggedIn && s.role == Some(e.who))
    ensures e.BackFromLogin? ==> (b <==> !s.loggedIn && s.role.Some?)
    ensures e.LogoutPressed? ==> (b <==> s.loggedIn)
    ensures e.ListProduct? && Valid(s) ==> (b <==> s.loggedIn && s.role == Some(Seller))
  {
    match e
    case LanguagePressed => true
    case PickRole(_) => ScreenOf(s) == Landing
    case SubmitLogin(who) => ScreenOf(s) == LoginScreen(who)
    case BackFromLogin => ScreenOf(s).LoginScreen?
    case LogoutPressed => ScreenOf(s).DashboardScreen?
    case ListProduct(_) => ScreenOf(s) == DashboardScreen(Seller)
  }

  function Step(s: AppState, e: AppEvent): (r: AppState)
    ensures Valid(s) && Offered(s, e) ==> Valid(r)
    ensures e.ListProduct? ==> r.products == [e.p] + s.products
    ensures !e.ListProduct? ==> r.products == s.products
    ensures !e.LanguagePressed? ==> r.lang == s.lang
  {
    match e
    case PickRole(who) => ChooseRole(s, who)
    case SubmitLogin(who) => Login(s, who)
    case BackFromLogin => ClearRole(s)
    case LogoutPressed => Logout(s)
    case ListProduct(p) => AddProduct(s, p)
    case LanguagePressed => ToggleLanguage(s)
  }

  /** Each event of the list is offered by the screen it reaches. */
  predicate AllOffered(s: AppState, es: seq<AppEvent>)
    decreases |es|
  {
    |es| == 0 || (Offered(s, es[0]) && AllOffered(Step(s, es[0]), es[1..]))
  }

  function Run(s: AppState, es: seq<AppEvent>): AppState
    decreases |es|
  {
    if |es| == 0 then s else Run(Step(s, es[0]), es[1..])
  }

  /** Every sequence of offered actions keeps "logged in implies a role". */
  lemma {:induction false} RunKeepsValid(s: AppState, es: seq<AppEvent>)
    requires Valid(s) && AllOffered(s, es)
    ensures Valid(Run(s, es))
    decreases |es|
  {
    if |es| > 0 {
      RunKeepsValid(Step(s, es[0]), es[1..]);
    }
  }

  function Reverse<T>(s: seq<T>): (r: seq<T>)
    ensures |r| == |s|
    ensures forall i :: 0 <= i < |s| ==> r[i] == s[|s| - 1 - i]
  {
    if |s| == 0 then [] else Reverse(s[1..]) + [s[0]]
  }

  lemma PrependAssoc<T>(a: seq<T>, x: T, b: seq<T>)
    ensures (a + [x]) + b == a + ([x] + b)
  {
  }

  /** Adding listings one after another in the given order. */
  function AddAll(s: AppState, ps: seq<Product>): AppState
    decreases |ps|
  {
    if |ps| == 0 then s else AddAll(AddProduct(s, ps[0]), ps[1..])
  }

  /** The product list is prepend-only: after several additions the newest is
      first, and the list ends with the earlier products in their order. */
  lemma {:induction false} AddAllPrepends(s: AppState, ps: seq<Product>)
    ensures AddAll(s, ps).products == Reverse(ps) + s.products
    ensures AddAll(s, ps).role == s.role && AddAll(s, ps).loggedIn == s.loggedIn
    ensures AddAll(s, ps).lang == s.lang
    decreases |ps|
  {
    if |ps| > 0 {
      var s1 := AddProduct(s, ps[0]);
      AddAllPrepends(s1, ps[1..]);
      PrependAssoc(Reverse(ps[1..]), ps[0], s.products);
    }
  }
}

=== FILE: creative_flow.dfy ===
/** The creative-reuse branch: pick the tools at hand, ask the AI service for a
    blueprint, then walk its steps one at a time. */
module Creative {
  import opened Types

  /** The project name every blueprint request carries. */
  const ProjectName: string := "Upcycled Craft"

  datatype CreativeState = CreativeState(
    selected: seq<Tool>,
    instructions: Option<ReuseInstruction>,
    loading: bool,
    activeStep: int)

  function Init(): (s: CreativeState)
    ensures Valid(s) && ViewOf(s) == ToolPicker(s.selected) && |s.selected| == 0
    ensures s.activeStep == 0 && !s.loading && s.instructions.None?
  {
    CreativeState([], None, false, 0)
  }

  // ---------------------------------------------------------------------------
  // Tool selection

  /** The position of the first occurrence of t in s. */
  function Position(s: seq<Tool>, t: Tool): (p: nat)
    requires t in s
    ensures p < |s| && s[p] == t && t !in s[..p]
  {
    if s[0] == t then 0
    else
      var k := Position(s[1..], t);
      assert s[..k + 1] == [s[0]] + s[1..][..k];
      k + 1
  }

  /** The sequence with every occurrence of t filtered out. The other tools
      keep their order: a tool that occurs once is cut out of its place. */
  function Without(s: seq<Tool>, t: Tool): (r: seq<Tool>)
    ensures forall u :: u in r <==> u in s && u != t
    ensures |r| <= |s|
    ensures NoDuplicates(s) ==> NoDuplicates(r)
    ensures NoDuplicates(s) && t in s ==> |r| == |s| - 1
    ensures t !in s ==> r == s
    ensures t in s && t !in s[Position(s, t) + 1..] ==>
              r == s[..Position(s, t)] + s[Position(s, t) + 1..]
  {
    if |s| == 0 then []
    else
      var rest := Without(s[1..], t);
      if s[0] == t then
        assert s[..0] + s[1..] == s[1..];
        rest
      else
        CutBehindHead(s, t, rest);
        [s[0]] + rest
  }

  /** Cutting t out of a list whose head is another tool: the head stays in
      front of the tail with t cut out. */
  lemma CutBehindHead(s: seq<Tool>, t: Tool, rest: seq<Tool>)
    requires |s| > 0 && s[0] != t
    requires t in s[1..] && t !in s[1..][Position(s[1..], t) + 1..] ==>
               rest == s[1..][..Position(s[1..], t)] + s[1..][Position(s[1..], t) + 1..]
    ensures t in s && t !in s[Position(s, t) + 1..] ==>
              [s[0]] + rest == s[..Position(s, t)] + s[Position(s, t) + 1..]
  {
    if t in s {
      var p := Position(s[1..], t);
      assert s[1..][p + 1..] == s[p + 2..];
      assert s[..p + 1] == [s[0]] + s[1..][..p];
    }
  }

  /** Appending a tool that is not yet selected keeps the list duplicate-free. */
  lemma {:induction false} AppendFresh(s: seq<Tool>, t: Tool)
    requires NoDuplicates(s) && t !in s
    ensures NoDuplicates(s + [t])
    decreases |s|
  {
    if |s| > 0 {
      assert (s + [t])[1..] == s[1..] + [t];
      AppendFresh(s[1..], t);
    }
  }

  /** Pressing a tool: a selected tool is removed and the others keep their
      order; any other tool is appended last. */
  function Toggle(sel: seq<Tool>, t: Tool): (r: seq<Tool>)
    ensures t in r <==> t !in sel
    ensures forall u :: u != t ==> (u in r <==> u in sel)
    ensures t !in sel ==> r == sel + [t]
    ensures t in sel && NoDuplicates(sel) ==>
              r == sel[..Position(sel, t)] + sel[Position(sel, t) + 1..]
    ensures NoDuplicates(sel) ==> NoDuplicates(r)
  {
    if t in sel then
      NoDuplicatesAfter(sel, t);
      Without(sel, t)
    else
      assert NoDuplicates(sel) ==> NoDuplicates(sel + [t]) by {
        if NoDuplicates(sel) { AppendFresh(sel, t); }
      }
      sel + [t]
  }

  /** In a duplicate-free list nothing after a tool's position equals it. */
  lemma {:induction false} NoDuplicatesAfter(s: seq<Tool>, t: Tool)
    requires t in s
    ensures NoDuplicates(s) ==> t !in s[Position(s, t) + 1..]
    decreases |s|
  {
    if s[0] != t {
      NoDuplicatesAfter(s[1..], t);
      assert s[1..][Position(s[1..], t) + 1..] == s[Position(s, t) + 1..];
    }
  }

  lemma {:induction false} WithoutAppend(s: seq<Tool>, t: Tool)
    ensures Without(s + [t], t) == Without(s, t)
    decreases |s|
  {
    if |s| == 0 {
      assert Without([t], t) == Without([], t);
    } else {
      assert (s + [t])[1..] == s[1..] + [t];
      WithoutAppend(s[1..], t);
    }
  }

  /** Pressing the same tool twice restores the selection: exactly when the tool
      was not selected, and up to order (the tool moves last) when it was. */
  lemma ToggleTwice(sel: seq<Tool>, t: Tool)
    requires NoDuplicates(sel)
    ensures forall u :: u in Toggle(Toggle(sel, t), t) <==> u in sel
    ensures t !in sel ==> Toggle(Toggle(sel, t), t) == sel
    ensures |Toggle(Toggle(sel, t), t)| == |sel|
  {
    if t !in sel {
      WithoutAppend(sel, t);
    } else {
      var w := Without(sel, t);
      assert t !in w;
    }
  }

  // ---------------------------------------------------------------------------
  // Blueprint generation

  datatype GenerateRequest = GenerateRequest(
    material: string,
    projectName: string,
    tools: seq<Tool>,
    lang: Language)

  datatype Started = Started(state: CreativeState, request: Option<GenerateRequest>)

  /** "Get Blueprint": with nothing selected the user is alerted and nothing
      else happens; otherwise the spinner starts and the service is asked for
      the fixed project name with the selected tools. */
  function RequestBlueprint(s: CreativeState, material: string, lang: Language): (r: Started)
    ensures r.request.None? <==> |s.selected| == 0
    ensures r.request.None? ==> r.state == s
    ensures r.request.Some? ==>
              && r.request.value == GenerateRequest(material, ProjectName, s.selected, lang)
              && r.state == s.(loading := true)
  {
    if |s.selected| == 0 then Started(s, None)
    else Started(s.(loading := true), Some(GenerateRequest(material, ProjectName, s.selected, lang)))
  }

  /** The service answers: instructions are stored on success and left as they
      were on failure; the spinner ends either way. The step index is kept. */
  function ReceiveBlueprint(s: CreativeState, outcome: Outcome<ReuseInstruction>): (r: CreativeState)
    ensures !r.loading
    ensures outcome.Success? ==> r.instructions == Some(outcome.value)
    ensures outcome.Failure? ==> r.instructions == s.instructions
    ensures r.selected == s.selected && r.activeStep == s.activeStep
  {
    match outcome
    case Success(ins) => s.(instructions := Some(ins), loading := false)
    case Failure => s.(loading := false)
  }

  /** The corrected answer handler: a new blueprint opens at its first step. */
  function ReceiveBlueprintCorrected(s: CreativeState, outcome: Outcome<ReuseInstruction>): (r: CreativeState)
    ensures !r.loading
    ensures outcome.Success? ==> r.instructions == Some(outcome.value) && r.activeStep == 0
    ensures outcome.Failure? ==> r == ReceiveBlueprint(s, outcome)
    ensures r.selected == s.selected
  {
    match outcome
    case Success(ins) => s.(instructions := Some(ins), loading := false, activeStep := 0)
    case Failure => s.(loading := false)
  }

  // ---------------------------------------------------------------------------
  // What is on screen

  datatype CreativeView =
    | Crafting
    | Blueprint(project: string, current: ReuseStep, prevEnabled: bool, nextShown: bool)
    | RenderError
    | ToolPicker(selected: seq<Tool>)

  /** The spinner while a request is in flight; the blueprint once instructions
      are in, showing the step at the active index (reading past the end of the
      steps fails the render); the tool picker otherwise. Prev is disabled at
      the first step; Next is shown before the last step, the finish button
      at and after it. */
  function ViewOf(s: CreativeState): (v: CreativeView)
    ensures v == Crafting <==> s.loading
    ensures v.ToolPicker? <==> !s.loading && s.instructions.None?
    ensures v.RenderError? <==>
              !s.loading && s.instructions.Some? &&
              !(0 <= s.activeStep < |s.instructions.value.steps|)
    ensures v.Blueprint? ==>
              && 0 <= s.activeStep < |s.instructions.value.steps|
              && v.current == s.instructions.value.steps[s.activeStep]
              && v.project == s.instructions.value.projectName
              && (v.prevEnabled <==> s.activeStep != 0)
              && (v.nextShown <==> s.activeStep < |s.instructions.value.steps| - 1)
  {
    if s.loading then Crafting
    else if s.instructions.Some? then
      var steps := s.instructions.value.steps;
      if 0 <= s.activeStep < |steps| then
        Blueprint(s.instructions.value.projectName, steps[s.activeStep],
                  s.activeStep != 0, s.activeStep < |steps| - 1)
      else RenderError
    else ToolPicker(s.selected)
  }

  // ---------------------------------------------------------------------------
  // Events

  datatype CreativeEvent =
    | ToggleTool(t: Tool)
    | GeneratePressed
    | GenerateReturned(outcome: Outcome<ReuseInstruction>)
    | Prev
    | Next
    | FinishPressed
    | BackToTools
    | BackPressed

  /** The flow either stays, with a new state, or hands control back to the
      scanner's decision point through its back callback. */
  datatype Transition = Stay(state: CreativeState) | Leave

  function Offered(s: CreativeState, e: CreativeEvent): (b: bool)
    ensures e.ToggleTool? || e.GeneratePressed? || e.BackPressed? ==>
              (b <==> !s.loading && s.instructions.None?)
    ensures e.GenerateReturned? ==> (b <==> s.loading)
    ensures e.Prev? ==>
              (b <==> !s.loading && s.instructions.Some? &&
                      0 < s.activeStep < |s.instructions.value.steps|)
    ensures e.Next? ==>
              (b <==> !s.loading && s.instructions.Some? &&
                      0 <= s.activeStep < |s.instructions.value.steps| - 1)
    ensures e.FinishPressed? ==>
              (b <==> !s.loading && s.instructions.Some? &&
                      0 <= s.activeStep == |s.instructions.value.steps| - 1)
    ensures e.BackToTools? ==>
              (b <==> !s.loading && s.instructions.Some? &&
                      0 <= s.activeStep < |s.instructions.value.steps|)
  {
    var v := ViewOf(s);
    match e
    case ToggleTool(_) => v.ToolPicker?
    case GeneratePressed => v.ToolPicker?
    case BackPressed => v.ToolPicker?
    case GenerateReturned(_) => s.loading
    case Prev => v.Blueprint? && v.prevEnabled
    case Next => v.Blueprint? && v.nextShown
    case FinishPressed => v.Blueprint? && !v.nextShown
    case BackToTools => v.Blueprint?
  }

  /** The invariant of every reachable state of the flow as written. */
  predicate Valid(s: CreativeState) {
    && s.activeStep >= 0
    && NoDuplicates(s.selected)
    && (s.loading ==> s.instructions.None? && |s.selected| > 0)
  }

  /** The flow as written. Back from the blueprint clears the instructions but
      keeps the step index and the tool selection. */
  function Step(s: CreativeState, e: CreativeEvent, material: string, lang: Language): (r: Transition)
    ensures r.Leave? <==> e.FinishPressed? || e.BackPressed?
    ensures Valid(s) && Offered(s, e) && r.Stay? ==> Valid(r.state)
    ensures e.Prev? && r.Stay? ==> r.state == s.(activeStep := s.activeStep - 1)
    ensures e.Next? && r.Stay? ==> r.state == s.(activeStep := s.activeStep + 1)
    ensures e.BackToTools? && r.Stay? ==> r.state == s.(instructions := None)
  {
    match e
    case ToggleTool(t) => Stay(s.(selected := Toggle(s.selected, t)))
    case GeneratePressed => Stay(RequestBlueprint(s, material, lang).state)
    case GenerateReturned(outcome) => Stay(ReceiveBlueprint(s, outcome))
    case Prev => Stay(s.(activeStep := s.activeStep - 1))
    case Next => Stay(s.(activeStep := s.activeStep + 1))
    case FinishPressed => Leave
    case BackToTools => Stay(s.(instructions := None))
    case BackPressed => Leave
  }

  /** A stepper over a fixed step list: the index lies in [0, len-1]. */
  predicate StepperInRange(s: CreativeState) {
    s.instructions.Some? && 0 <= s.activeStep < |s.instructions.value.steps|
  }

  /** Prev and Next, when the blueprint offers them, move by exactly one and
      keep the index inside the step list; a freshly received blueprint whose
      index is still 0 starts inside it whenever it has a step. */
  lemma StepperStaysInRange(s: CreativeState, e: CreativeEvent, material: string, lang: Language)
    requires StepperInRange(s) && !s.loading && Offered(s, e) && (e.Prev? || e.Next?)
    ensures var r := Step(s, e, material, lang);
            && r.Stay? && StepperInRange(r.state)
            && r.state.instructions == s.instructions
            && (e.Prev? ==> r.state.activeStep == s.activeStep - 1 >= 0)
            && (e.Next? ==> r.state.activeStep == s.activeStep + 1 < |s.instructions.value.steps|)
  {
  }

  /** At the last step Next is gone and only the finish button remains, which
      leaves the flow; Next never overflows the list. */
  lemma LastStepOnlyFinishes(s: CreativeState, material: string, lang: Language)
    requires StepperInRange(s) && !s.loading
    requires s.activeStep == |s.instructions.value.steps| - 1
    ensures !Offered(s, Next) && Offered(s, FinishPressed)
    ensures Step(s, FinishPressed, material, lang) == Leave
  {
  }

  predicate AllOffered(s: CreativeState, es: seq<CreativeEvent>, material: string, lang: Language)
    decreases |es|
  {
    |es| == 0 ||
    (Offered(s, es[0]) &&
     match Step(s, es[0], material, lang)
     case Leave => |es| == 1
     case Stay(s1) => AllOffered(s1, es[1..], material, lang))
  }

  function Run(s: CreativeState, es: seq<CreativeEvent>, material: string, lang: Language): Transition
    decreases |es|
  {
    if |es| == 0 then Stay(s)
    else match Step(s, es[0], material, lang)
      case Leave => Leave
      case Stay(s1) => Run(s1, es[1..], material, lang)
  }

  /** The language only travels with the blueprint request: the flow's
      states, and which events they offer, are the same in either language,
      so a run may switch language between any two events. */
  lemma {:induction false} RunIgnoresLanguage(s: CreativeState, es: seq<CreativeEvent>, material: string,
                                              a: Language, b: Language)
    ensures Run(s, es, material, a) == Run(s, es, material, b)
    ensures AllOffered(s, es, material, a) <==> AllOffered(s, es, material, b)
    decreases |es|
  {
    if |es| > 0 {
      assert Step(s, es[0], material, a) == Step(s, es[0], material, b);
      match Step(s, es[0], material, a)
      case Leave =>
      case Stay(s1) => RunIgnoresLanguage(s1, es[1..], material, a, b);
    }
  }

  lemma {:induction false} RunKeepsValid(s: CreativeState, es: seq<CreativeEvent>, material: string, lang: Language)
    requires Valid(s) && AllOffered(s, es, material, lang)
    ensures Run(s, es, material, lang).Stay? ==> Valid(Run(s, es, material, lang).state)
    decreases |es|
  {
    if |es| > 0 {
      match Step(s, es[0], material, lang)
      case Leave =>
      case Stay(s1) => RunKeepsValid(s1, es[1..], material, lang);
    }
  }

  /** The flow never asks the service with an empty selection: in every
      reachable state a request in flight carries at least one tool. */
  lemma NoEmptyRequest(es: seq<CreativeEvent>, material: string, lang: Language)
    requires AllOffered(Init(), es, material, lang)
    ensures var r := Run(Init(), es, material, lang);
            r.Stay? && r.state.loading ==> |r.state.selected| > 0 && NoDuplicates(r.state.selected)
  {
    RunKeepsValid(Init(), es, material, lang);
  }

  // ---------------------------------------------------------------------------
  // The stale step index

  function Instruction(n: nat): (ins: ReuseInstruction)
    ensures |ins.steps| == n
  {
    ReuseInstruction(ProjectName, "PET Bottle", Numbered(n), "bottle craft")
  }

  function Numbered(n: nat): (r: seq<ReuseStep>)
    ensures |r| == n
    ensures forall i :: 0 <= i < n ==> r[i].step == i + 1
  {
    if n == 0 then [] else Numbered(n - 1) + [ReuseStep(n, "", "")]
  }

  /** A three-step blueprint walked to its last step, Back, and a new request
      that returns a single step: the index is still 2, past the end of the new
      list, and the blueprint cannot be drawn. */
  lemma StaleStepBreaksBlueprint()
    ensures var es := [ToggleTool(Scissors), GeneratePressed,
                       GenerateReturned(Success(Instruction(3))), Next, Next, BackToTools,
                       GeneratePressed, GenerateReturned(Success(Instruction(1)))];
            && AllOffered(Init(), es, "PET Bottle", En)
            && Run(Init(), es, "PET Bottle", En).Stay?
            && ViewOf(Run(Init(), es, "PET Bottle", En).state) == RenderError
            && Run(Init(), es, "PET Bottle", En).state.activeStep == 2
            && |Run(Init(), es, "PET Bottle", En).state.instructions.value.steps| == 1
  {
    var m, l := "PET Bottle", En;
    var es := [ToggleTool(Scissors), GeneratePressed,
               GenerateReturned(Success(Instruction(3))), Next, Next, BackToTools,
               GeneratePressed, GenerateReturned(Success(Instruction(1)))];
    var s0 := Init();
    var s1 := Step(s0, es[0], m, l).state;
    assert s1.selected == [Scissors];
    var s2 := Step(s1, es[1], m, l).state;
    var s3 := Step(s2, es[2], m, l).state;
    var s4 := Step(s3, es[3], m, l).state;
    var s5 := Step(s4, es[4], m, l).state;
    var s6 := Step(s5, es[5], m, l).state;
    var s7 := Step(s6, es[6], m, l).state;
    var s8 := Step(s7, es[7], m, l).state;
    assert s8.activeStep == 2 && |s8.instructions.value.steps| == 1;
    assert ViewOf(s8) == RenderError;
    assert Run(s8, es[8..], m, l) == Stay(s8) && AllOffered(s8, es[8..], m, l);
    assert Run(s7, es[7..], m, l) == Stay(s8) && AllOffered(s7, es[7..], m, l);
    assert Run(s6, es[6..], m, l) == Stay(s8) && AllOffered(s6, es[6..], m, l);
    assert Run(s5, es[5..], m, l) == Stay(s8) && AllOffered(s5, es[5..], m, l);
    assert Run(s4, es[4..], m, l) == Stay(s8) && AllOffered(s4, es[4..], m, l);
    assert Run(s3, es[3..], m, l) == Stay(s8) && AllOffered(s3, es[3..], m, l);
    assert Run(s2, es[2..], m, l) == Stay(s8) && AllOffered(s2, es[2..], m, l);
    assert Run(s1, es[1..], m, l) == Stay(s8) && AllOffered(s1, es[1..], m, l);
  }

  /** The flow with the corrected answer handler. */
  function StepCorrected(s: CreativeState, e: CreativeEvent, material: string, lang: Language): (r: Transition)
    ensures CorrectedValid(s) && Offered(s, e) && r.Stay? ==> CorrectedValid(r.state)
    ensures !e.GenerateReturned? ==> r == Step(s, e, material, lang)
  {
    match e
    case GenerateReturned(outcome) => Stay(ReceiveBlueprintCorrected(s, outcome))
    case _ => Step(s, e, material, lang)
  }

  /** With the correction, a blueprint's index stays within its step list,
      whatever happened to earlier blueprints. */
  predicate CorrectedValid(s: CreativeState) {
    && Valid(s)
    && (s.instructions.Some? ==> s.activeStep == 0 || s.activeStep < |s.instructions.value.steps|)
  }

  predicate AllOfferedCorrected(s: CreativeState, es: seq<CreativeEvent>, material: string, lang: Language)
    decreases |es|
  {
    |es| == 0 ||
    (Offered(s, es[0]) &&
     match StepCorrected(s, es[0], material, lang)
     case Leave => |es| == 1
     case Stay(s1) => AllOfferedCorrected(s1, es[1..], material, lang))
  }

  function RunCorrected(s: CreativeState, es: seq<CreativeEvent>, material: string, lang: Language): Transition
    decreases |es|
  {
    if |es| == 0 then Stay(s)
    else match StepCorrected(s, es[0], material, lang)
      case Leave => Leave
      case Stay(s1) => RunCorrected(s1, es[1..], material, lang)
  }

  /** The corrected flow, too, is the same in either language. */
  lemma {:induction false} RunCorrectedIgnoresLanguage(s: CreativeState, es: seq<CreativeEvent>, material: string,
                                                       a: Language, b: Language)
    ensures RunCorrected(s, es, material, a) == RunCorrected(s, es, material, b)
    ensures AllOfferedCorrected(s, es, material, a) <==> AllOfferedCorrected(s, es, material, b)
    decreases |es|
  {
    if |es| > 0 {
      assert StepCorrected(s, es[0], material, a) == StepCorrected(s, es[0], material, b);
      match StepCorrected(s, es[0], material, a)
      case Leave =>
      case Stay(s1) => RunCorrectedIgnoresLanguage(s1, es[1..], material, a, b);
    }
  }

  lemma {:induction false} RunCorrectedKeepsValid(s: CreativeState, es: seq<CreativeEvent>, material: string, lang: Language)
    requires CorrectedValid(s) && AllOfferedCorrected(s, es, material, lang)
    ensures RunCorrected(s, es, material, lang).Stay? ==>
              CorrectedValid(RunCorrected(s, es, material, lang).state)
    decreases |es|
  {
    if |es| > 0 {
      match StepCorrected(s, es[0], material, lang)
      case Leave =>
      case Stay(s1) => RunCorrectedKeepsValid(s1, es[1..], material, lang);
    }
  }

  /** In the corrected flow a blueprint with at least one step always renders:
      the render fails only for a reply with an empty step list. */
  lemma CorrectedBlueprintRenders(es: seq<CreativeEvent>, material: string, lang: Language)
    requires AllOfferedCorrected(Init(), es, material, lang)
    ensures var r := RunCorrected(Init(), es, material, lang);
            r.Stay? && ViewOf(r.state) == RenderError ==>
              |r.state.instructions.value.steps| == 0
  {
    RunCorrectedKeepsValid(Init(), es, material, lang);
  }
}

=== FILE: disposal_guide.dfy ===
/** The disposal guide: a fixed, localised list of four disposal steps, numbered
    on screen and read aloud after the title. It is the same for every
    classification. */
module Disposal {
  import opened Types

  function Title(lang: Language): string {
    match lang
    case En => "Safe Disposal Guide"
    case Ta => "பாதுகாப்பான அகற்றும் வழிகாட்டி"
  }

  function Steps(lang: Language): (r: seq<string>)
    ensures |r| == 4
  {
    match lang
    case En => [
      "Empty and Rinse the container.",
      "Remove caps and separate labels.",
      "Check for the recycling symbol (1-7).",
      "Place in the designated BLUE collection bin."
    ]
    case Ta => [
      "கொள்கலனை காலி செய்து துவைக்கவும்.",
      "மூடிகளை அகற்றி லேபிள்களை பிரிக்கவும்.",
      "மறுசுழற்சி சின்னத்தை (1-7) சரிபார்க்கவும்.",
      "குறிப்பிடப்பட்ட நீலநிற சேகரிப்பு தொட்டியில் போடவும்."
    ]
  }

  datatype NumberedStep = NumberedStep(number: int, text: string)

  /** The list as displayed: the step at position i carries the number i + 1.
      The classification result is handed to the guide but never consulted. */
  function Guide(lang: Language, result: ClassificationResult): (r: seq<NumberedStep>)
    ensures |r| == |Steps(lang)| == 4
    ensures forall i :: 0 <= i < |r| ==> r[i].number == i + 1 && r[i].text == Steps(lang)[i]
  {
    var steps := Steps(lang);
    seq(|steps|, i requires 0 <= i < |steps| => NumberedStep(i + 1, steps[i]))
  }

  /** Numbers run 1, 2, 3, 4 without gaps, in list order. */
  lemma GuideNumbering(lang: Language, result: ClassificationResult)
    ensures var g := Guide(lang, result);
            g[0].number == 1 && g[|g| - 1].number == 4 &&
            forall i :: 0 <= i < |g| - 1 ==> g[i + 1].number == g[i].number + 1
  {
  }

  /** Hazardous, reusable or not: every result gets the same guide. */
  lemma GuideIgnoresResult(lang: Language, a: ClassificationResult, b: ClassificationResult)
    ensures Guide(lang, a) == Guide(lang, b)
  {
  }

  /** The pieces joined with sep between neighbours. */
  function Join(xs: seq<string>, sep: string): (r: string)
    ensures |xs| > 0 ==> |r| == Offset(xs, sep, |xs| - 1) + |xs[|xs| - 1]|
    ensures |xs| == 0 ==> r == ""
  {
    if |xs| == 0 then ""
    else if |xs| == 1 then xs[0]
    else xs[0] + sep + Join(xs[1..], sep)
  }

  /** Where piece i starts in the joined text: after every earlier piece and
      its separator. */
  function Offset(xs: seq<string>, sep: string, i: nat): nat
    requires i <= |xs|
  {
    if i == 0 then 0 else |xs[0]| + |sep| + Offset(xs[1..], sep, i - 1)
  }

  lemma SliceOfConcat(a: string, b: string, o: nat, k: nat)
    requires o + k <= |b|
    ensures (a + b)[|a| + o..|a| + o + k] == b[o..o + k]
  {
  }

  /** Each piece sits at its offset in the joined text, and a separator
      follows every piece but the last. */
  lemma {:induction false} JoinPieces(xs: seq<string>, sep: string, i: nat)
    requires i < |xs|
    ensures var r, o := Join(xs, sep), Offset(xs, sep, i);
            o + |xs[i]| <= |r| && r[o..o + |xs[i]|] == xs[i] &&
            (i < |xs| - 1 ==> o + |xs[i]| + |sep| <= |r| &&
                              r[o + |xs[i]|..o + |xs[i]| + |sep|] == sep)
    decreases i
  {
    if |xs| > 1 && i > 0 {
      var head, tail := xs[0] + sep, Join(xs[1..], sep);
      assert Join(xs, sep) == head + tail;
      JoinPieces(xs[1..], sep, i - 1);
      var o' := Offset(xs[1..], sep, i - 1);
      SliceOfConcat(head, tail, o', |xs[i]|);
      if i < |xs| - 1 {
        SliceOfConcat(head, tail, o' + |xs[i]|, |sep|);
      }
    }
  }

  /** Four pieces joined by single spaces. */
  lemma JoinFour(s: seq<string>)
    requires |s| == 4
    ensures Join(s, " ") == s[0] + " " + s[1] + " " + s[2] + " " + s[3]
  {
    assert s[1..][1..] == s[2..];
    assert s[2..][1..] == s[3..];
    assert Join(s[3..], " ") == s[3];
    assert Join(s[2..], " ") == s[2] + " " + Join(s[3..], " ");
    assert Join(s[1..], " ") == s[1] + " " + Join(s[2..], " ");
    assert Join(s, " ") == s[0] + " " + Join(s[1..], " ");
  }

  /** The text read aloud: the title, a full stop and a space, then the four
      steps separated by single spaces. */
  function Narration(lang: Language): (r: string)
    ensures var t, s := Title(lang), Steps(lang);
            r == t + ". " + s[0] + " " + s[1] + " " + s[2] + " " + s[3]
  {
    Announce(Title(lang), Steps(lang))
  }

  function Announce(title: string, steps: seq<string>): (r: string)
    requires |steps| == 4
    ensures r == title + ". " + steps[0] + " " + steps[1] + " " + steps[2] + " " + steps[3]
  {
    JoinFour(steps);
    title + ". " + Join(steps, " ")
  }
}

=== FILE: scan_process.dfy ===
/** The scan workflow: a photo is read as a data URL, its payload is sent for
    classification, and a classified item leads to a decision between the
    creative-reuse branch and the disposal guide. */
module Scan {
  import opened Types

  datatype Decision = CreativeBranch | DisposalBranch

  datatype ScanState = ScanState(
    image: Option<string>,
    loading: bool,
    result: Option<ClassificationResult>,
    decision: Option<Decision>)

  function Init(): (s: ScanState)
    ensures Inv(s)
    ensures ViewOf(s).UploadPage? && ViewOf(s).uploadPrompt
  {
    ScanState(None, false, None, None)
  }

  // ---------------------------------------------------------------------------
  // The classification payload

  /** The position of the first occurrence of c in s, if any. */
  function IndexOf(s: string, c: char): (r: Option<nat>)
    ensures r.None? <==> c !in s
    ensures r.Some? ==> r.value < |s| && s[r.value] == c && c !in s[..r.value]
  {
    if |s| == 0 then None
    else if s[0] == c then Some(0)
    else
      match IndexOf(s[1..], c)
      case None => None
      case Some(k) =>
        assert s[..k + 1] == [s[0]] + s[1..][..k];
        Some(k + 1)
  }

  /** The second comma-separated field of a string: the text after the first
      comma, up to the next comma or the end. Without a comma there is no such
      field, and the classifier is sent no data. For a data URL, whose base64
      body holds no comma, this is the whole body. */
  function Payload(url: string): (r: Option<string>)
    ensures r.None? <==> ',' !in url
    ensures r.Some? ==> ',' !in r.value
    ensures r.Some? ==> var i := IndexOf(url, ',').value;
                        i + 1 + |r.value| <= |url| &&
                        url[i + 1..i + 1 + |r.value|] == r.value &&
                        (i + 1 + |r.value| == |url| || url[i + 1 + |r.value|] == ',')
  {
    match IndexOf(url, ',')
    case None => None
    case Some(i) =>
      var rest := url[i + 1..];
      match IndexOf(rest, ',')
      case None => Some(rest)
      case Some(j) => Some(rest[..j])
  }

  /** A data URL: a header without commas, one comma, and a comma-free body. */
  lemma {:induction false} PayloadOfDataUrl(header: string, body: string)
    requires ',' !in header && ',' !in body
    ensures Payload(header + "," + body) == Some(body)
  {
    var url := header + "," + body;
    assert url[|header|] == ',';
    var i := IndexOf(url, ',').value;
    assert url[..|header|] == header;
    assert i == |header|;
    assert url[i + 1..] == body;
  }

  // ---------------------------------------------------------------------------
  // Classification

  datatype ClassifyRequest = ClassifyRequest(payload: Option<string>, lang: Language)

  datatype Started = Started(state: ScanState, request: ClassifyRequest)

  /** The file reader has produced a data URL: the image is kept, a spinner
      replaces any earlier result, and the payload goes to the classifier. */
  function BeginAnalysis(s: ScanState, url: string, lang: Language): (r: Started)
    ensures r.state.image == Some(url)
    ensures r.state.loading && r.state.result.None?
    ensures r.state.decision == s.decision
    ensures r.request.lang == lang
    ensures r.request.payload.Some? <==> ',' in url
    ensures r.request.payload == Payload(url)
  {
    Started(ScanState(Some(url), true, None, s.decision), ClassifyRequest(Payload(url), lang))
  }

  /** The classifier's answer arrives: a result is stored, a failure (after an
      alert) stores nothing; either way the spinner ends. */
  function FinishAnalysis(s: ScanState, outcome: Outcome<ClassificationResult>): (r: ScanState)
    ensures !r.loading
    ensures r.image == s.image && r.decision == s.decision
    ensures outcome.Success? ==> r.result == Some(outcome.value)
    ensures outcome.Failure? ==> r.result == s.result
  {
    match outcome
    case Success(data) => s.(result := Some(data), loading := false)
    case Failure => s.(loading := false)
  }

  // ---------------------------------------------------------------------------
  // What is on screen

  datatype ScanView =
    | CreativeView(material: string)
    | DisposalView(shown: ClassificationResult)
    | UploadPage(uploadPrompt: bool, spinner: bool, resultPanel: bool,
                 creativeOffered: bool, disposalOffered: bool)

  /** A branch screen replaces the page when a decision is taken and a result
      is present. On the page, the picker shows while there is neither an image
      nor a call in flight, and the result panel with its decision buttons once
      a result is in and nothing is loading; the creative button is withheld
      for hazardous items only. */
  function ViewOf(s: ScanState): (v: ScanView)
    ensures v.CreativeView? <==> s.decision == Some(CreativeBranch) && s.result.Some?
    ensures v.CreativeView? ==> v.material == s.result.value.materialName
    ensures v.DisposalView? <==> s.decision == Some(DisposalBranch) && s.result.Some?
    ensures v.DisposalView? ==> v.shown == s.result.value
    ensures v.UploadPage? ==> (v.uploadPrompt <==> s.image.None? && !s.loading)
    ensures v.UploadPage? ==> (v.spinner <==> s.loading)
    ensures v.UploadPage? ==> (v.disposalOffered <==> s.result.Some? && !s.loading)
    ensures v.UploadPage? ==> (v.creativeOffered <==>
                               s.result.Some? && !s.loading &&
                               s.result.value.classification != Hazardous)
    ensures v.UploadPage? ==> (v.resultPanel <==> v.disposalOffered)
  {
    if s.decision == Some(CreativeBranch) && s.result.Some? then
      CreativeView(s.result.value.materialName)
    else if s.decision == Some(DisposalBranch) && s.result.Some? then
      DisposalView(s.result.value)
    else
      var panel := s.result.Some? && !s.loading;
      var hazardous := s.result.Some? && s.result.value.classification == Hazardous;
      UploadPage(s.image.None? && !s.loading, s.loading, panel, panel && !hazardous, panel)
  }

  // ---------------------------------------------------------------------------
  // Events

  /** The four ways out of a branch screen. All of them call the same callback. */
  datatype ExitButton = CreativeBack | CreativeFinish | DisposalBack | DisposalGotIt

  datatype ScanEvent =
    | FileLoaded(url: string)
    | ClassifyReturned(outcome: Outcome<ClassificationResult>)
    | PickCreative
    | PickDisposal
    | LeaveBranch(via: ExitButton)

  /** Which events the current screen can produce. An answer can only arrive
      while a call is in flight. */
  function Offered(s: ScanState, e: ScanEvent): (b: bool)
    ensures e.FileLoaded? ==>
              (b <==> s.image.None? && !s.loading && (s.decision.None? || s.result.None?))
    ensures e.ClassifyReturned? ==> (b <==> s.loading)
    ensures e.PickCreative? ==>
              (b <==> s.decision.None? && s.result.Some? && !s.loading &&
                      s.result.value.classification != Hazardous)
    ensures e.PickDisposal? ==> (b <==> s.decision.None? && s.result.Some? && !s.loading)
    ensures e.LeaveBranch? ==>
              (b <==> s.result.Some? &&
                      s.decision == Some(if e.via == CreativeBack || e.via == CreativeFinish
                                         then CreativeBranch else DisposalBranch))
  {
    var v := ViewOf(s);
    assert s.decision.Some? ==>
             s.decision == Some(s.decision.value) &&
             (s.decision.value.CreativeBranch? || s.decision.value.DisposalBranch?);
    match e
    case FileLoaded(_) => v.UploadPage? && v.uploadPrompt
    case ClassifyReturned(_) => s.loading
    case PickCreative => v.UploadPage? && v.creativeOffered
    case PickDisposal => v.UploadPage? && v.disposalOffered
    case LeaveBranch(via) =>
      if via == CreativeBack || via == CreativeFinish then v.CreativeView? else v.DisposalView?
  }

  /** The workflow invariant of every reachable state. */
  predicate Inv(s: ScanState) {
    && (s.result.Some? ==> s.image.Some? && !s.loading)
    && (s.loading ==> s.image.Some? && s.result.None?)
    && (s.decision.Some? ==> s.result.Some?)
    && (s.decision == Some(CreativeBranch) ==> s.result.value.classification != Hazardous)
  }

  function Step(s: ScanState, e: ScanEvent, lang: Language): (r: ScanState)
    ensures Inv(s) && Offered(s, e) ==> Inv(r)
    ensures e.PickCreative? || e.PickDisposal? ==> r == s.(decision := r.decision)
    ensures e.LeaveBranch? ==> r == s.(decision := None)
  {
    match e
    case FileLoaded(url) => BeginAnalysis(s, url, lang).state
    case ClassifyReturned(outcome) => FinishAnalysis(s, outcome)
    case PickCreative => s.(decision := Some(CreativeBranch))
    case PickDisposal => s.(decision := Some(DisposalBranch))
    case LeaveBranch(_) => s.(decision := None)
  }

  predicate AllOffered(s: ScanState, es: seq<ScanEvent>, lang: Language)
    decreases |es|
  {
    |es| == 0 || (Offered(s, es[0]) && AllOffered(Step(s, es[0], lang), es[1..], lang))
  }

  function Run(s: ScanState, es: seq<ScanEvent>, lang: Language): ScanState
    decreases |es|
  {
    if |es| == 0 then s else Run(Step(s, es[0], lang), es[1..], lang)
  }

  /** The language only travels with the classification request: the
      workflow's states, and which events they offer, are the same in either
      language, so a run may switch language between any two events. */
  lemma {:induction false} RunIgnoresLanguage(s: ScanState, es: seq<ScanEvent>, a: Language, b: Language)
    ensures Run(s, es, a) == Run(s, es, b)
    ensures AllOffered(s, es, a) <==> AllOffered(s, es, b)
    decreases |es|
  {
    if |es| > 0 {
      assert Step(s, es[0], a) == Step(s, es[0], b);
      RunIgnoresLanguage(Step(s, es[0], a), es[1..], a, b);
    }
  }

  lemma {:induction false} RunKeepsInv(s: ScanState, es: seq<ScanEvent>, lang: Language)
    requires Inv(s) && AllOffered(s, es, lang)
    ensures Inv(Run(s, es, lang))
    decreases |es|
  {
    if |es| > 0 {
      RunKeepsInv(Step(s, es[0], lang), es[1..], lang);
    }
  }

  /** Whatever the user does, a hazardous item never reaches the creative
      branch, and the creative branch always works on the classified material. */
  lemma HazardousNeverCreative(es: seq<ScanEvent>, lang: Language)
    requires AllOffered(Init(), es, lang)
    ensures var s := Run(Init(), es, lang);
            ViewOf(s).CreativeView? ==>
              s.result.Some? && s.result.value.classification != Hazardous
  {
    RunKeepsInv(Init(), es, lang);
  }

  /** Picking a branch from the decision point shows that branch's screen. */
  lemma PickShowsBranch(s: ScanState, e: ScanEvent, lang: Language)
    requires Inv(s) && Offered(s, e) && (e.PickCreative? || e.PickDisposal?)
    ensures e.PickCreative? ==> ViewOf(Step(s, e, lang)) == CreativeView(s.result.value.materialName)
    ensures e.PickDisposal? ==> ViewOf(Step(s, e, lang)) == DisposalView(s.result.value)
  {
  }

  /** Leaving either branch, by any of its buttons, returns to the decision
      point with the same image and result: the disposal button is offered
      again, and the creative one unless the item is hazardous. */
  lemma LeaveReturnsToDecision(s: ScanState, via: ExitButton, lang: Language)
    requires Inv(s) && Offered(s, LeaveBranch(via))
    ensures var r := Step(s, LeaveBranch(via), lang);
            var v := ViewOf(r);
            && r.image == s.image && r.result == s.result && r.decision.None?
            && v.UploadPage? && v.resultPanel && v.disposalOffered && !v.uploadPrompt
            && (v.creativeOffered <==> s.result.value.classification != Hazardous)
  {
  }

  /** A failed classification leaves the image set and no result, so neither
      the picker nor the result panel is shown and no event of the workflow is
      offered any more: there is no way to retry inside the scanner. */
  lemma {:induction false} FailureIsStuck(s: ScanState, lang: Language)
    requires Inv(s) && s.loading
    ensures var r := Step(s, ClassifyReturned(Failure), lang);
            && r.image == s.image && r.result.None? && !r.loading
            && ViewOf(r).UploadPage? && !ViewOf(r).uploadPrompt && !ViewOf(r).resultPanel
            && forall e :: !Offered(r, e)
  {
    var r := Step(s, ClassifyReturned(Failure), lang);
    forall e
      ensures !Offered(r, e)
    {
      match e
      case LeaveBranch(via) =>
        assert !ViewOf(r).CreativeView? && !ViewOf(r).DisposalView?;
      case _ =>
    }
  }
}

=== FILE: types.dfy ===
/** Shared records of the EcoCycleAI front end: roles, languages, tools,
    marketplace products, classification results and generated reuse
    instructions, plus the outcome of a call into the remote AI service. */
module Types {

  datatype Option<+T> = None | Some(value: T)

  /** The result of an awaited call into the AI service. The model never looks
      inside a failure: transport errors and unparseable replies are alike. */
  datatype Outcome<+T> = Success(value: T) | Failure

  datatype Role = User | Seller

  datatype Language = En | Ta

  datatype Tool = Scissors | Glue | Cutter | Paint | Thread

  /** A marketplace listing. The price is the source's floating-point number;
      the model never computes with it. */
  datatype Product = Product(
    id: string,
    name: string,
    description: string,
    price: real,
    imageUrl: string,
    sellerName: string,
    rank: Option<string>,
    videoUrl: Option<string>)

  datatype ReuseStep = ReuseStep(step: int, instruction: string, visualPrompt: string)

  datatype ReuseInstruction = ReuseInstruction(
    projectName: string,
    material: string,
    steps: seq<ReuseStep>,
    youtubeSearchQuery: string)

  datatype Classification = Reusable | NonReusable | Hazardous

  datatype Suggestion = Suggestion(title: string, description: string)

  datatype ClassificationResult = ClassificationResult(
    classification: Classification,
    reason: string,
    materialName: string,
    impactMessage: string,
    suggestions: Option<seq<Suggestion>>)

  /** True iff the sequence holds no element twice. */
  predicate NoDuplicates<T(==)>(s: seq<T>) {
    |s| == 0 || (s[0] !in s[1..] && NoDuplicates(s[1..]))
  }
}

=== FILE: user_dashboard.dfy ===
/** The user's dashboard: a three-way switch between the home page, the scan
    workflow and the marketplace. */
module Dashboard {

  datatype View = Home | Scanning | Buying

  /** What the dashboard renders for a view. */
  datatype Page = HomePage | ScanPage | MarketPage

  /** Entry buttons of the home page and the back callbacks of the two sub-screens.
      The primary "Scan & Transform" card and the "New Project" tile of the
      gallery both open the scanner. */
  datatype DashEvent = ScanCard | NewProjectTile | MarketCard | ScanBack | MarketBack

  function Init(): (v: View)
    ensures PageOf(v) == HomePage
  {
    Home
  }

  /** Exactly one page per view. */
  function PageOf(v: View): (p: Page)
    ensures p == HomePage <==> v == Home
    ensures p == ScanPage <==> v == Scanning
    ensures p == MarketPage <==> v == Buying
  {
    match v
    case Scanning => ScanPage
    case Buying => MarketPage
    case Home => HomePage
  }

  /** The entry buttons live on the home page; each sub-screen offers only its
      own back callback. */
  function Offered(v: View, e: DashEvent): (b: bool)
    ensures v == Home ==> (b <==> e == ScanCard || e == NewProjectTile || e == MarketCard)
    ensures v == Scanning ==> (b <==> e == ScanBack)
    ensures v == Buying ==> (b <==> e == MarketBack)
  {
    match e
    case ScanCard => PageOf(v) == HomePage
    case NewProjectTile => PageOf(v) == HomePage
    case MarketCard => PageOf(v) == HomePage
    case ScanBack => PageOf(v) == ScanPage
    case MarketBack => PageOf(v) == MarketPage
  }

  function Step(v: View, e: DashEvent): (r: View)
    ensures (e == ScanCard || e == NewProjectTile) ==> PageOf(r) == ScanPage
    ensures e == MarketCard ==> PageOf(r) == MarketPage
    ensures (e == ScanBack || e == MarketBack) ==> PageOf(r) == HomePage
  {
    match e
    case ScanCard => Scanning
    case NewProjectTile => Scanning
    case MarketCard => Buying
    case ScanBack => Home
    case MarketBack => Home
  }

  /** Leaving the home page through any entry button and taking the back
      callback of the screen reached returns to the home page. */
  lemma EnterThenBack(e: DashEvent)
    requires Offered(Home, e)
    ensures var v := Step(Home, e);
            var back := if v == Buying then MarketBack else ScanBack;
            Offered(v, back) && Step(v, back) == Home
  {
  }
}
